=== FILE: README.md ===
# vt-server client library (`vtapi.js`) in Dafny

This project models the browser-side client of the vt-server virtual-machine
service. The client validates VM parameters before anything is sent and
shapes the REST requests of its API wrappers. The model covers:

- the `Action` enumeration (`start`, `stop`, `suspend`, `reset`);
- the `Params` value object: its constructor and the static checks
  `checkRange`, `checkIp` and `checkAction`;
- the `Group` constructor and the `GlobalState` record;
- the body rule of `send`: a JSON body goes with every method except GET;
- the url, method and JSON payload built by `list`, `listfiles`, `rmfile`,
  `add`, `vtimport`, `vtexport`, `set`, `rm`, `link` and `unlink`.

Modules:

- `Outcomes` (`outcomes.dfy`): `Option` for a value that may be `undefined`,
  `Result` for "returns a value or throws", and `Outcome` for "returns nothing
  or throws".
- `JsValues` (`js_values.dfy`): the JavaScript values the library touches.
  A number is `Num = Undef | Int(n) | NonInteger`, which captures
  `Number.isInteger` without floats. A JSON object's members are kept in the
  order `JSON.stringify` writes them. That order puts integer-like keys first,
  but every key this model adds (`names` and the `Params` properties) is not
  an array index, so it goes after the existing members, in assignment order.
  This module also models property read and write and the
  rule that `JSON.stringify` drops `undefined` properties.
- `Ipv4` (`ipv4.dfy`): the `checkIp` regular expression, written as a string
  grammar, and proofs that it equals the numeric rule "four dot-separated
  segments, each of 1–3 digits with value at most 255".
- `VmParams` (`vm_params.dfy`): `Action`, the three checks, the `Params`
  constructor as written, the corrected constructor (see Findings), `Group`
  and `GlobalState`.
- `Requests` (`requests.dfy`): `send`, the ten wrappers, and `Route`, a
  server-side reading of a request. `Route` is the inverse used to prove that
  a wrapper's request carries all of its arguments, for every wrapper call
  except a `set` whose options are an array or already hold `names` (the
  names of an array are not serialized; an old `names` value is
  overwritten).

Points where the code does something other than its doc comments suggest,
modelled as the code does it:

- `cores` is checked against, and copied from, the `cpu` argument
  (vtapi.js:73). The `cores` argument is never read.
- `checkIp` has no pass-through for `undefined`: `RegExp.prototype.test`
  turns a missing value into the text "undefined", which fails the pattern.
  So constructing `Params` without an address always throws.
- `checkAction` returns nothing, even for a valid action. The constructor
  never calls it.
- `vtimport` and `vtexport` assign the result of `send` to `response`, a
  name nothing declares (vtapi.js:213, 229). In strict code the assignment
  throws a ReferenceError after the request has gone to `fetch` (see
  Findings).
- `rmfile` sends DELETE with the body `{}`. It passes no data, so `send`'s
  default `{}` is used, and only GET drops the body.

## Model

| member | source | states |
|---|---|---|
| VmParams.ActionValuesAreTheActions | src/main/resources/static/js/vtapi.js:9-14 | `Object.values(Action)` holds four strings, one per action, each listed once, and no others |
| VmParams.CheckAction | src/main/resources/static/js/vtapi.js:80-90 | passes exactly when the argument is undefined or the name of some action; any other value throws; it never returns a value |
| VmParams.CheckRange | src/main/resources/static/js/vtapi.js:92-111 | undefined passes through as undefined for any bounds; a defined value passes, unchanged, exactly when it is an integer with min ≤ n and (no max or n ≤ max); non-integers always throw |
| VmParams.CheckRangeBoundsInclusive | src/main/resources/static/js/vtapi.js:92-101 | both bounds are inclusive; one below min or one above max throws; with no max, any value above min passes |
| VmParams.CheckRangeIntersection | src/main/resources/static/js/vtapi.js:72-73 | passing two range checks on the same value is the same as passing one check against the intersection of the ranges |
| Ipv4.OctetPatternIsNumeric | src/main/resources/static/js/vtapi.js:116 | the octet alternative `[01]?[0-9]?[0-9]\|2[0-4][0-9]\|25[0-5]` accepts exactly strings of 1–3 decimal digits with value ≤ 255, leading zeros included |
| Ipv4.MatcherIsRegex | src/main/resources/static/js/vtapi.js:116-119 | the split-based matcher accepts exactly the language of the anchored regex: four octets joined by dots |
| Ipv4.MatcherIsNumeric | src/main/resources/static/js/vtapi.js:116-121 | the matcher accepts exactly the numeric dotted quads: four dot-separated segments, each 1–3 digits with value ≤ 255 |
| Ipv4.SplitJoin | src/main/resources/static/js/vtapi.js:117-119 | splitting four dot-free octets joined by the regex's `\.` separators gives the octets back |
| Ipv4.JoinSplit | src/main/resources/static/js/vtapi.js:117-119 | every string is the join of its dot-free segments |
| VmParams.CheckIp | src/main/resources/static/js/vtapi.js:114-127 | succeeds exactly on a defined numeric dotted quad (and exactly on the regex's language), returning the address unchanged; wrong segment count, empty segment, non-digit or value > 255 throws |
| VmParams.CheckIpRejectsUndefined | src/main/resources/static/js/vtapi.js:121-123 | a missing address throws: there is no undefined pass-through |
| VmParams.NewParams | src/main/resources/static/js/vtapi.js:68-78 | succeeds exactly when ram ∈ [1024, 65536], hdd ≥ 1024, cpu ∈ [1, 100] (each may be undefined) and ip is a dotted quad; on success stores name, iso and action unchanged, the checked numbers, cores = cpu, and status STOP |
| VmParams.NewParamsRequiresIp | src/main/resources/static/js/vtapi.js:74 | construction without an ip always throws |
| VmParams.NewParamsCoresFromCpu | src/main/resources/static/js/vtapi.js:72-73 | a successful construction with a defined cpu has 1 ≤ cpu ≤ 100 and cores == cpu; cpu = 0 is rejected |
| VmParams.NewParamsIgnoresCores | src/main/resources/static/js/vtapi.js:68-73 | the result does not depend on the `cores` argument |
| VmParams.NewParamsIgnoresActionValidity | src/main/resources/static/js/vtapi.js:76 | action is not validated: success does not depend on which action string is given |
| VmParams.NewParamsExample | src/main/resources/static/js/vtapi.js:68-78 | ("vm1", 512, 1024, 50, 1, "1.2.3.4", undefined, "start") throws because ram is too low; with ram 2048 it succeeds, with cores 50 and status STOP |
| VmParams.CoresCheckedAgainstCpu | src/main/resources/static/js/vtapi.js:72-73 | as written, cpu 0 with cores 2 throws and cpu 50 with undefined cores stores 50 cores; the corrected constructor accepts the first and keeps cores undefined in the second |
| VmParams.NewParamsIntended | src/main/resources/static/js/vtapi.js:68-78 | corrected constructor: cpu ∈ [0, 100] and cores ≥ 1 are each checked and stored from their own arguments, and the other fields are as in the constructor as written |
| VmParams.IntendedAgreesWhenCoresIsCpu | src/main/resources/static/js/vtapi.js:72-73 | when cores is given the value of cpu, the corrected and as-written constructors give the same result |
| VmParams.NewGroup | src/main/resources/static/js/vtapi.js:42-45 | a new group has the given name and no members |
| Requests.Send | src/main/resources/static/js/vtapi.js:131-142 | the request keeps url and method, declares a JSON content type, and carries the data as body exactly when the method is not GET |
| Requests.List | src/main/resources/static/js/vtapi.js:169-171 | GET to conn + "/list" with no body |
| Requests.ListFiles | src/main/resources/static/js/vtapi.js:179-181 | GET to conn + "/file" with no body |
| Requests.RmFile | src/main/resources/static/js/vtapi.js:188-190 | DELETE to conn + "/file/" + name, with the default body `{}` |
| Requests.Add | src/main/resources/static/js/vtapi.js:199-201 | POST to conn + "/add" with the options as body |
| Requests.VtImport | src/main/resources/static/js/vtapi.js:212-214 | the request `vtimport` hands to `fetch`: POST to conn + "/import" with a body whose `name` and `fileName` are the arguments (the exception raised afterwards is in `Requests.Perform`) |
| Requests.VtExport | src/main/resources/static/js/vtapi.js:228-230 | the request `vtexport` hands to `fetch`: POST to conn + "/export" with a body whose `name` and `fileName` are the arguments (the exception raised afterwards is in `Requests.Perform`) |
| JsValues.AssignSetsKey | src/main/resources/static/js/vtapi.js:240 | after `options.names = names`, reading `names` gives the new list |
| JsValues.AssignKeepsOthers | src/main/resources/static/js/vtapi.js:240 | the write leaves every other property unchanged |
| JsValues.AssignAppendsNewKey | src/main/resources/static/js/vtapi.js:240 | when the options had no `names`, the write appends it as the last member and keeps the rest in order |
| Requests.SetNames | src/main/resources/static/js/vtapi.js:240 | the write succeeds exactly on objects and arrays: on an object `names` becomes the list; an array serializes unchanged; null or a primitive throws (strict mode) |
| Requests.Set | src/main/resources/static/js/vtapi.js:239-242 | succeeds exactly when options is an object or array; POST to conn + "/set"; for an object the body has `names` set to the list and every other property as in the options; for an array the body is the array unchanged |
| Requests.SetOverwritesNames | src/main/resources/static/js/vtapi.js:239-242 | when the options already hold `names`, at any position among the members, the old value is overwritten in place: it does not affect the request, and the body is the options with only that member's value replaced |
| Requests.Rm | src/main/resources/static/js/vtapi.js:250-252 | POST to conn + "/rm" with body `{name: 'toRemove', elements: names}` |
| Requests.Link | src/main/resources/static/js/vtapi.js:261-263 | POST to conn + "/link" with body `{name: groupName, elements: vms}` |
| Requests.Unlink | src/main/resources/static/js/vtapi.js:272-274 | POST to conn + "/unlink" with body `{name: groupName, elements: vms}` |
| Requests.RouteInvertsIssue | src/main/resources/static/js/vtapi.js:169-273 | every wrapper call (a `set` only when its options object has no `names` of its own) builds a request (for `vtimport`/`vtexport`, the corrected wrappers), and the call and all its arguments can be read back from the suffix, method and payload alone |
| Requests.Perform | src/main/resources/static/js/vtapi.js:169-273 | a wrapper call as written: it throws before sending exactly when `set` cannot write `names`; otherwise it sends the request the corrected model builds; it throws after sending exactly for `vtimport` and `vtexport` |
| Requests.ImportExportThrowAfterSending | src/main/resources/static/js/vtapi.js:212-230 | as written, every `vtimport` and `vtexport` call throws, for every argument, although the request it sent carries the call and all its arguments |
| Requests.PerformAgreesElsewhere | src/main/resources/static/js/vtapi.js:169-273 | for every other wrapper, the call as written returns exactly when the corrected model issues a request, and sends that request |
| Requests.IssueIsInjective | src/main/resources/static/js/vtapi.js:169-273 | two different such calls to the same endpoint never produce the same request |
| Requests.BodyExactlyWhenNotGet | src/main/resources/static/js/vtapi.js:139-142 | across all wrappers, only `list` and `listfiles` send no body |
| Requests.ParamsToJson | src/main/resources/static/js/vtapi.js:68-77 | the serialized `Params` is an object with no `names` member; it always has `status` as the action's name, and each of `name`, `ram`, `hdd`, `cpu`, `cores`, `ip`, `iso` and `action` is present, with the stored value, exactly when it is defined |
| Requests.SetWithParams | src/main/resources/static/js/vtapi.js:239-242 | `set` with a serialized `Params` never throws, and both the options and the names are read back from the request |

## Findings

| source | as written | input that shows it | evidently intended | confidence | as-written member | corrected member |
|---|---|---|---|---|---|---|
| src/main/resources/static/js/vtapi.js:213 | `return response = send(...)` in `vtimport` assigns to `response`, which nothing declares; the file is strict (`"use strict"`, and an ES module), so the assignment throws a ReferenceError after `send` has called `fetch` | any call, e.g. `vtimport(conn, "vm1", "vm1.json")`: the server receives the import, and the caller gets an exception | `return send(...)`, as the other wrappers do | high, not executed | Requests.Perform, Requests.ImportExportThrowAfterSending | Requests.VtImport, Requests.RouteInvertsIssue |
| src/main/resources/static/js/vtapi.js:229 | the same assignment to the undeclared `response` in `vtexport` | any call, e.g. `vtexport(conn, "vm1", "vm1.json")`: the server performs the export, and the caller gets an exception | `return send(...)` | high, not executed | Requests.Perform, Requests.ImportExportThrowAfterSending | Requests.VtExport, Requests.RouteInvertsIssue |
| src/main/resources/static/js/vtapi.js:73 | `cores` is checked with bound [1, ∞) and stored from the `cpu` argument; the `cores` argument is ignored | cpu = 0, cores = 2 throws, although both values are in range; cpu = 50 with cores undefined stores cores = 50 | check and store `cores` from its own argument | medium, not executed | VmParams.NewParams, VmParams.CoresCheckedAgainstCpu | VmParams.NewParamsIntended |

`Requests.Issue`, and with it the `Route` round trip, uses the corrected
`vtimport` and `vtexport`, which return the promise `send` gives. The request
they send is the same as written and corrected; only the exception differs.

The rest of the model does not depend on which constructor built a `Params`.
`Requests.ParamsToJson` and `Requests.SetWithParams` take any `Params` whose
numbers are integers, and both constructors produce only such values.
`NewParams` stays as written because callers of the library see that
behaviour.

## Left out

- `upload`: it depends on the browser's `FormData` and file-input objects, and
  it builds its URL from a `File` object.
- The `fetch` call, the promise chain, `response.json()` parsing, and the
  logging with `console.log`/`console.error`. This is I/O. A failed transport
  call resolving to `undefined` is not modelled; a wrapper's model ends at the
  request it hands to `fetch`.
- Error message texts: every throw is the single `Err`/`Fail` constructor.
- JavaScript number semantics beyond `Number.isInteger`: fractions, `NaN`,
  `Infinity`, `null` and non-number values all become `NonInteger`.
- Numbers in a request payload are integers (`JNum(n: int)`). A fraction in
  an options object passed to `add` or `set` (such as `{cpu: 12.5}`) cannot be
  written; `Add` and `Set` otherwise pass the payload on unexamined.
- `name`, `iso`, `action` and `ip` are modelled as strings or `undefined`.
  Converting other values to strings (for the regex test, or for URL
  concatenation in `rmfile`) is not modelled.
- The JSON body is modelled as a JSON value, not as the text
  `JSON.stringify` produces.
- The unused `options` parameters of `list`, `listfiles` and `rmfile` are
  omitted.
- Requests.Add: an `undefined` options argument is not modelled. `send`'s
  default parameter would turn it into the body `{}`.
- Requests.Set: the call mutates the caller's options object. The model
  returns the extended value instead. Re-using the same object later is
  covered only by `SetOverwritesNames`.
- Requests.Set: the options are taken as their serialized JSON. A property
  whose value is `undefined` is absent from that form, so an options object
  that already holds `names: undefined` is not modelled: the code overwrites
  that member in its place, while the model appends `names` last. A call
  with `undefined` options, which throws a TypeError, is not modelled
  either.
- Requests.Rm, Requests.Link, Requests.Unlink, Requests.VtImport,
  Requests.VtExport, Requests.Set: the string and list arguments (`name`,
  `groupName`, `fileName`, `names`, `vms`) are always defined. An
  `undefined` argument makes `JSON.stringify` drop that member from the
  body; this is not modelled.
- Requests.Perform: a global `response` defined by some other script of the
  page would turn the ReferenceError into a silent overwrite of that global;
  the model assumes no such global exists.
- `GlobalState` has no behaviour beyond storing its two arguments. It is a
  datatype here, with no operation.
- Extending `Params` by subclassing, and the `export` statement: module
  wiring, not behaviour.

=== FILE: ipv4.dfy ===
/** IPv4 dotted-decimal syntax as `Params.checkIp` accepts it: the regular
    expression `^O\.O\.O\.O$` where O is the octet alternative
    `[01]?[0-9]?[0-9]|2[0-4][0-9]|25[0-5]`. The grammar is modelled directly
    over strings and shown equal to a plain numeric rule. */
module Ipv4 {

  predicate IsDigit(c: char) {
    '0' <= c <= '9'
  }

  predicate AllDigits(s: string) {
    forall i :: 0 <= i < |s| ==> IsDigit(s[i])
  }

  function DigitValue(c: char): (d: nat)
    requires IsDigit(c)
    ensures d <= 9
  {
    c as int - '0' as int
  }

  /** The value of a string of decimal digits, most significant first;
      leading zeros are allowed. */
  function DecimalValue(s: string): nat
    requires AllDigits(s)
  {
    if |s| == 0 then 0
    else 10 * DecimalValue(s[..|s| - 1]) + DigitValue(s[|s| - 1])
  }

  predicate IsZeroOrOne(c: char) {
    c == '0' || c == '1'
  }

  /** The octet alternative `[01]?[0-9]?[0-9]|2[0-4][0-9]|25[0-5]`, one
      disjunct per way the regular expression can match. */
  predicate OctetPattern(p: string) {
    // [01]?[0-9]?[0-9], with neither, the second, the first, or both optional parts present
    || (|p| == 1 && IsDigit(p[0]))
    || (|p| == 2 && IsDigit(p[0]) && IsDigit(p[1]))
    || (|p| == 2 && IsZeroOrOne(p[0]) && IsDigit(p[1]))
    || (|p| == 3 && IsZeroOrOne(p[0]) && IsDigit(p[1]) && IsDigit(p[2]))
    // 2[0-4][0-9]
    || (|p| == 3 && p[0] == '2' && '0' <= p[1] <= '4' && IsDigit(p[2]))
    // 25[0-5]
    || (|p| == 3 && p[0] == '2' && p[1] == '5' && '0' <= p[2] <= '5')
  }

  /** The numeric reading of an octet: one to three decimal digits whose
      value is at most 255. */
  predicate NumericOctet(p: string) {
    1 <= |p| <= 3 && AllDigits(p) && DecimalValue(p) <= 255
  }

  lemma ThreeDigitValue(p: string)
    requires |p| == 3 && AllDigits(p)
    ensures DecimalValue(p) == 100 * DigitValue(p[0]) + 10 * DigitValue(p[1]) + DigitValue(p[2])
  {
    var q := p[..2];
    assert q[..1] == p[..1] && q[1] == p[1];
    assert p[..1][..0] == [];
    assert DecimalValue(p[..1]) == DigitValue(p[0]);
    assert DecimalValue(q) == 10 * DigitValue(p[0]) + DigitValue(p[1]);
  }

  lemma TwoDigitValue(p: string)
    requires |p| == 2 && AllDigits(p)
    ensures DecimalValue(p) == 10 * DigitValue(p[0]) + DigitValue(p[1])
  {
    assert p[..1][..0] == [];
    assert DecimalValue(p[..1]) == DigitValue(p[0]);
  }

  /** The octet alternative of the regular expression accepts exactly the
      decimal numbers 0 to 255, written with one to three digits. */
  lemma OctetPatternIsNumeric(p: string)
    ensures OctetPattern(p) <==> NumericOctet(p)
  {
    if |p| == 3 && AllDigits(p) {
      ThreeDigitValue(p);
    } else if |p| == 2 && AllDigits(p) {
      TwoDigitValue(p);
    } else if |p| == 1 && AllDigits(p) {
      assert p[..0] == [];
      assert DecimalValue(p) == DigitValue(p[0]);
    }
  }

  /** Splitting on '.', as `String.prototype.split('.')` does: n dots give
      n + 1 segments, some possibly empty. */
  function Split(s: string): (parts: seq<string>)
    ensures |parts| >= 1
  {
    if |s| == 0 then [""]
    else
      var rest := Split(s[1..]);
      if s[0] == '.' then [""] + rest
      else [[s[0]] + rest[0]] + rest[1..]
  }

  /** Joining segments with '.' between them. */
  function Join(parts: seq<string>): string
    requires |parts| >= 1
  {
    if |parts| == 1 then parts[0] else parts[0] + "." + Join(parts[1..])
  }

  predicate NoDot(p: string) {
    '.' !in p
  }

  lemma {:induction false} SplitWithoutDot(s: string)
    requires NoDot(s)
    ensures Split(s) == [s]
  {
    if |s| > 0 {
      assert '.' !in s[1..];
      SplitWithoutDot(s[1..]);
      assert [s[0]] + s[1..] == s;
    }
  }

  lemma {:induction false} SplitAfterSegment(p: string, t: string)
    requires NoDot(p)
    ensures Split(p + "." + t) == [p] + Split(t)
  {
    if |p| == 0 {
      assert (p + "." + t)[1..] == t;
    } else {
      assert NoDot(p[1..]);
      SplitAfterSegment(p[1..], t);
      assert (p + "." + t)[1..] == p[1..] + "." + t;
      assert [p[0]] + p[1..] == p;
    }
  }

  /** Splitting undoes joining when no segment holds a dot. */
  lemma {:induction false} SplitJoin(parts: seq<string>)
    requires |parts| >= 1
    requires forall i :: 0 <= i < |parts| ==> NoDot(parts[i])
    ensures Split(Join(parts)) == parts
  {
    if |parts| == 1 {
      SplitWithoutDot(parts[0]);
    } else {
      SplitJoin(parts[1..]);
      SplitAfterSegment(parts[0], Join(parts[1..]));
      assert [parts[0]] + parts[1..] == parts;
    }
  }

  /** Joining undoes splitting, and no segment of a split holds a dot. */
  lemma {:induction false} JoinSplit(s: string)
    ensures Join(Split(s)) == s
    ensures forall i :: 0 <= i < |Split(s)| ==> NoDot(Split(s)[i])
  {
    if |s| > 0 {
      JoinSplit(s[1..]);
      var rest := Split(s[1..]);
      if s[0] == '.' {
        assert Split(s) == [""] + rest;
        assert Split(s)[1..] == rest;
        assert s == "" + "." + s[1..];
      } else {
        var parts := Split(s);
        assert parts == [[s[0]] + rest[0]] + rest[1..];
        assert NoDot(rest[0]);
        assert forall i :: 1 <= i < |parts| ==> parts[i] == rest[i];
        if |rest| == 1 {
          assert s == [s[0]] + s[1..];
        } else {
          assert parts[1..] == rest[1..];
          assert Join(rest) == rest[0] + "." + Join(rest[1..]);
          assert s == [s[0]] + s[1..];
        }
      }
    }
  }

  /** The whole regular expression, read as a language: the string is four
      octets joined by dots, anchored at both ends. */
  ghost predicate MatchesIpv4Regex(s: string) {
    exists parts: seq<string> ::
      |parts| == 4 && Join(parts) == s && forall i :: 0 <= i < 4 ==> OctetPattern(parts[i])
  }

  /** The executable matcher: split on dots and test each segment against the
      octet alternative. */
  predicate MatchesQuad(s: string) {
    var parts := Split(s);
    |parts| == 4 && forall i :: 0 <= i < 4 ==> OctetPattern(parts[i])
  }

  /** The numeric rule: exactly four dot-separated segments, each one to three
      decimal digits with value at most 255. */
  predicate DottedQuad(s: string) {
    var parts := Split(s);
    |parts| == 4 && forall i :: 0 <= i < 4 ==> NumericOctet(parts[i])
  }

  lemma OctetHasNoDot(p: string)
    requires OctetPattern(p)
    ensures NoDot(p)
  {
  }

  /** The executable matcher accepts exactly the language of the regular
      expression. */
  lemma MatcherIsRegex(s: string)
    ensures MatchesQuad(s) <==> MatchesIpv4Regex(s)
  {
    if MatchesQuad(s) {
      JoinSplit(s);
      var parts := Split(s);
      assert |parts| == 4 && Join(parts) == s && forall i :: 0 <= i < 4 ==> OctetPattern(parts[i]);
    }
    if MatchesIpv4Regex(s) {
      var parts :| |parts| == 4 && Join(parts) == s && forall i :: 0 <= i < 4 ==> OctetPattern(parts[i]);
      forall i | 0 <= i < |parts|
        ensures NoDot(parts[i])
      {
        OctetHasNoDot(parts[i]);
      }
      SplitJoin(parts);
    }
  }

  /** The regular expression accepts exactly the numeric dotted quads,
      leading zeros included. */
  lemma MatcherIsNumeric(s: string)
    ensures MatchesQuad(s) <==> DottedQuad(s)
  {
    var parts := Split(s);
    if |parts| == 4 {
      forall i | 0 <= i < 4
        ensures OctetPattern(parts[i]) <==> NumericOctet(parts[i])
      {
        OctetPatternIsNumeric(parts[i]);
      }
    }
  }

  /** A string without dots is never a dotted quad. */
  lemma NoDotIsNotQuad(s: string)
    requires NoDot(s)
    ensures !MatchesQuad(s) && !DottedQuad(s)
  {
    SplitWithoutDot(s);
  }

  /** Four numeric octets joined by dots form a dotted quad. */
  lemma QuadOfOctets(a: string, b: string, c: string, d: string)
    requires NumericOctet(a) && NumericOctet(b) && NumericOctet(c) && NumericOctet(d)
    ensures DottedQuad(a + "." + b + "." + c + "." + d)
  {
    var parts := [a, b, c, d];
    forall i | 0 <= i < 4
      ensures NoDot(parts[i])
    {
      OctetPatternIsNumeric(parts[i]);
      OctetHasNoDot(parts[i]);
    }
    SplitJoin(parts);
    assert parts[1..] == [b, c, d] && parts[1..][1..] == [c, d] && parts[1..][1..][1..] == [d];
    assert Join([c, d]) == c + "." + d;
    assert Join([b, c, d]) == b + "." + (c + "." + d);
    assert Join(parts) == a + "." + (b + "." + (c + "." + d));
    assert a + "." + (b + "." + (c + "." + d)) == a + "." + b + "." + c + "." + d;
  }
}

=== FILE: js_values.dfy ===
/** The few JavaScript values the client library inspects. */
module JsValues {

  import opened Outcomes

  /** A numeric argument as the validators see it: `undefined`, a value for
      which `Number.isInteger` holds, or any other defined value (a fraction,
      `NaN`, `Infinity`, `null`, a string, ...), all of which fail
      `Number.isInteger`. */
  datatype Num = Undef | Int(n: int) | NonInteger

  /** A JSON value, as produced by `JSON.stringify` of the request data.
      Object members are in the order `JSON.stringify` writes them: integer-like
      keys first, then the others in insertion order. Every key this model adds
      is of the second kind. Properties whose value is `undefined` are absent,
      as `JSON.stringify` omits them. */
  datatype Json =
    | JNull
    | JBool(b: bool)
    | JNum(n: int)
    | JStr(s: string)
    | JArr(items: seq<Json>)
    | JObj(fields: seq<(string, Json)>)

  /** The empty object `{}`. */
  const EmptyObject: Json := JObj([])

  /** The keys of an object's members, in order. */
  function Keys(fields: seq<(string, Json)>): (ks: seq<string>)
    ensures |ks| == |fields|
    ensures forall i :: 0 <= i < |fields| ==> ks[i] == fields[i].0
  {
    seq(|fields|, i requires 0 <= i < |fields| => fields[i].0)
  }

  /** Property read `obj[key]`: the first member named `key`. */
  function Lookup(fields: seq<(string, Json)>, key: string): (v: Option<Json>)
    ensures v.Some? <==> key in Keys(fields)
  {
    if |fields| == 0 then None
    else if fields[0].0 == key then Some(fields[0].1)
    else Lookup(fields[1..], key)
  }

  /** Property write `obj[key] = v` on an object's members: an existing
      member keeps its place and takes the new value; a new one is appended,
      which is where `JSON.stringify` writes a new key that is not an array
      index. The model only writes such keys. */
  function Assign(fields: seq<(string, Json)>, key: string, v: Json): seq<(string, Json)> {
    if |fields| == 0 then [(key, v)]
    else if fields[0].0 == key then [(key, v)] + fields[1..]
    else [fields[0]] + Assign(fields[1..], key, v)
  }

  /** After a property write, reading the property gives the written value. */
  lemma {:induction false} AssignSetsKey(fields: seq<(string, Json)>, key: string, v: Json)
    ensures Lookup(Assign(fields, key, v), key) == Some(v)
  {
    if |fields| > 0 && fields[0].0 != key {
      AssignSetsKey(fields[1..], key, v);
    }
  }

  /** Writing a property the object does not have appends it at the end. */
  lemma {:induction false} AssignAppendsNewKey(fields: seq<(string, Json)>, key: string, v: Json)
    requires key !in Keys(fields)
    ensures Assign(fields, key, v) == fields + [(key, v)]
  {
    if |fields| > 0 {
      assert fields[0].0 == Keys(fields)[0];
      assert Keys(fields[1..]) == Keys(fields)[1..];
      AssignAppendsNewKey(fields[1..], key, v);
      assert [fields[0]] + (fields[1..] + [(key, v)]) == fields + [(key, v)];
    }
  }

  /** A property write leaves every other property as it was. */
  lemma {:induction false} AssignKeepsOthers(fields: seq<(string, Json)>, key: string, v: Json, k: string)
    requires k != key
    ensures Lookup(Assign(fields, key, v), k) == Lookup(fields, k)
  {
    if |fields| > 0 && fields[0].0 != key {
      AssignKeepsOthers(fields[1..], key, v, k);
    }
  }

  /** Writing a property the object already has replaces the value of its
      first member of that name, in place; the members before and after are
      kept as they were. */
  lemma {:induction false} AssignReplacesFirst(pre: seq<(string, Json)>, tail: seq<(string, Json)>, key: string, v: Json)
    requires key !in Keys(pre)
    requires |tail| > 0 && tail[0].0 == key
    ensures Assign(pre + tail, key, v) == pre + ([(key, v)] + tail[1..])
  {
    if |pre| == 0 {
      assert pre + tail == tail;
    } else {
      var all := pre + tail;
      assert pre[0].0 == Keys(pre)[0];
      assert Keys(pre[1..]) == Keys(pre)[1..];
      assert all[0] == pre[0] && all[1..] == pre[1..] + tail;
      AssignReplacesFirst(pre[1..], tail, key, v);
      assert [pre[0]] + (pre[1..] + ([(key, v)] + tail[1..])) == pre + ([(key, v)] + tail[1..]);
    }
  }

  /** The members `JSON.stringify` writes for an object whose properties
      are `entries`: those whose value is `undefined` are left out. */
  function Defined(entries: seq<(string, Option<Json>)>): (fields: seq<(string, Json)>)
    ensures |fields| <= |entries|
  {
    if |entries| == 0 then []
    else if entries[0].1.None? then Defined(entries[1..])
    else [(entries[0].0, entries[0].1.value)] + Defined(entries[1..])
  }

  /** A key no property has is not written. */
  lemma {:induction false} DefinedOmitsAbsentKey(entries: seq<(string, Option<Json>)>, k: string)
    requires forall i :: 0 <= i < |entries| ==> entries[i].0 != k
    ensures k !in Keys(Defined(entries))
  {
    if |entries| > 0 {
      DefinedOmitsAbsentKey(entries[1..], k);
    }
  }

  /** Reading back the member for a property whose key is not repeated
      earlier gives its value, or nothing when it is `undefined`. */
  lemma {:induction false} DefinedLookup(entries: seq<(string, Option<Json>)>, i: nat)
    requires i < |entries|
    requires forall j :: 0 <= j < |entries| && j != i ==> entries[j].0 != entries[i].0
    ensures Lookup(Defined(entries), entries[i].0) == entries[i].1
  {
    if i == 0 {
      if entries[0].1.None? {
        DefinedOmitsAbsentKey(entries[1..], entries[0].0);
      }
    } else {
      DefinedLookup(entries[1..], i - 1);
    }
  }

  /** When no key is repeated, every property reads back as its value, or
      as nothing when it is `undefined`. */
  lemma DefinedLookupAll(entries: seq<(string, Option<Json>)>)
    requires forall i, j :: 0 <= i < |entries| && 0 <= j < |entries| && i != j ==> entries[i].0 != entries[j].0
    ensures forall i :: 0 <= i < |entries| ==> Lookup(Defined(entries), entries[i].0) == entries[i].1
  {
    forall i | 0 <= i < |entries|
      ensures Lookup(Defined(entries), entries[i].0) == entries[i].1
    {
      DefinedLookup(entries, i);
    }
  }

  /** A JSON array of strings. */
  function Strings(names: seq<string>): (j: Json)
    ensures j.JArr? && |j.items| == |names|
    ensures forall i :: 0 <= i < |names| ==> j.items[i] == JStr(names[i])
  {
    JArr(seq(|names|, i requires 0 <= i < |names| => JStr(names[i])))
  }

  /** Reads a JSON array of strings back, failing on anything else. */
  function AsStrings(j: Json): (r: Option<seq<string>>)
    ensures r.Some? ==> j.JArr? && |r.value| == |j.items|
  {
    if j.JArr? then StringItems(j.items) else None
  }

  /** The strings held by a sequence of JSON values that are all strings. */
  function StringItems(items: seq<Json>): (r: Option<seq<string>>)
    ensures r.Some? ==> |r.value| == |items|
    ensures r.Some? ==> forall i :: 0 <= i < |items| ==> items[i] == JStr(r.value[i])
  {
    if |items| == 0 then Some([])
    else if !items[0].JStr? then None
    else
      match StringItems(items[1..])
      case None => None
      case Some(rest) => Some([items[0].s] + rest)
  }

  /** Reading back an array written by `Strings` gives the names again. */
  lemma {:induction false} AsStringsOfStrings(names: seq<string>)
    ensures AsStrings(Strings(names)) == Some(names)
  {
    StringItemsOfStrings(names);
  }

  lemma {:induction false} StringItemsOfStrings(names: seq<string>)
    ensures StringItems(Strings(names).items) == Some(names)
  {
    if |names| > 0 {
      var items := Strings(names).items;
      StringItemsOfStrings(names[1..]);
      assert items[1..] == Strings(names[1..]).items;
      assert items[0] == JStr(names[0]);
      assert [names[0]] + names[1..] == names;
    }
  }
}

=== FILE: outcomes.dfy ===
/** Failure-compatible wrappers for the library's two kinds of outcome: a value
    that may be absent (JavaScript `undefined`), and a call that either returns
    a value or throws. Error messages are not modelled, so a failure carries no
    payload. */
module Outcomes {

  /** A JavaScript value that may be `undefined`. */
  datatype Option<+T> = None | Some(value: T)

  /** The result of a call that returns `value` or throws. */
  datatype Result<+T> = Ok(value: T) | Err {

    predicate IsFailure() {
      Err?
    }

    function PropagateFailure<U>(): Result<U>
      requires Err?
    {
      Err
    }

    function Extract(): T
      requires Ok?
    {
      value
    }
  }

  /** The result of a call that returns nothing or throws. */
  datatype Outcome = Pass | Fail
}

=== FILE: requests.dfy ===
/** Request shaping: how `send` frames a request and how each API wrapper maps
    its arguments to a url, an HTTP method and a JSON payload (vtapi.js lines
    131-147 and 169-273). The HTTP round trip itself is not modelled: a
    wrapper's model is the request it hands to `fetch`. */
module Requests {

  import opened Outcomes
  import opened JsValues
  import opened VmParams

  datatype Method = Get | Post | Delete

  /** The request `send` passes to `fetch`. `body` is the JSON text
      `JSON.stringify(data)`, modelled by the JSON value it encodes. */
  datatype Request = Request(url: string, verb: Method, headers: seq<(string, string)>, body: Option<Json>)

  const ContentType := "Content-Type"
  const JsonUtf8 := "application/json; charset=utf-8"

  /** `send`: always declares a JSON body, and carries the encoded `data`
      exactly when the method is not GET. Callers that pass no data send the
      default `{}`. */
  function Send(url: string, verb: Method, data: Json): (r: Request)
    ensures r.url == url && r.verb == verb
    ensures r.headers == [(ContentType, JsonUtf8)]
    ensures r.body.None? <==> verb == Get
    ensures r.body.Some? ==> r.body.value == data
  {
    var framed := Request(url, verb, [(ContentType, JsonUtf8)], Some(data));
    if verb == Get then framed.(body := None) else framed
  }

  /** `list`: GET `conn/list`, without a body. */
  function List(conn: string): (r: Request)
    ensures r.url == conn + "/list" && r.verb == Get && r.body == None
  {
    Send(conn + "/list", Get, EmptyObject)
  }

  /** `listfiles`: GET `conn/file`, without a body. */
  function ListFiles(conn: string): (r: Request)
    ensures r.url == conn + "/file" && r.verb == Get && r.body == None
  {
    Send(conn + "/file", Get, EmptyObject)
  }

  /** `rmfile`: DELETE `conn/file/<name>`. No data is passed, so the body is
      the default empty object. */
  function RmFile(conn: string, name: string): (r: Request)
    ensures r.url == conn + "/file/" + name && r.verb == Delete && r.body == Some(EmptyObject)
  {
    Send(conn + "/file/" + name, Delete, EmptyObject)
  }

  /** `add`: POST `conn/add` with the options as the body. */
  function Add(conn: string, options: Json): (r: Request)
    ensures r.url == conn + "/add" && r.verb == Post && r.body == Some(options)
  {
    Send(conn + "/add", Post, options)
  }

  /** The `{name, fileName}` payload of import and export. */
  function NameAndFile(name: string, fileName: string): Json {
    JObj([("name", JStr(name)), ("fileName", JStr(fileName))])
  }

  /** `vtimport`: POST `conn/import` with `{name, fileName}`. */
  function VtImport(conn: string, name: string, fileName: string): (r: Request)
    ensures r.url == conn + "/import" && r.verb == Post
    ensures r.body.Some? && r.body.value.JObj?
    ensures Lookup(r.body.value.fields, "name") == Some(JStr(name))
    ensures Lookup(r.body.value.fields, "fileName") == Some(JStr(fileName))
  {
    Send(conn + "/import", Post, NameAndFile(name, fileName))
  }

  /** `vtexport`: POST `conn/export` with `{name, fileName}`. */
  function VtExport(conn: string, name: string, fileName: string): (r: Request)
    ensures r.url == conn + "/export" && r.verb == Post
    ensures r.body.Some? && r.body.value.JObj?
    ensures Lookup(r.body.value.fields, "name") == Some(JStr(name))
    ensures Lookup(r.body.value.fields, "fileName") == Some(JStr(fileName))
  {
    Send(conn + "/export", Post, NameAndFile(name, fileName))
  }

  /** `options.names = names` as seen by `JSON.stringify`: an object gains (or
      overwrites) the property; on an array the named property is set but not
      serialized; on `null` or a primitive the assignment throws, since the
      module is in strict mode. */
  function SetNames(options: Json, names: seq<string>): (r: Result<Json>)
    ensures r.Ok? <==> options.JObj? || options.JArr?
    ensures options.JObj? ==> r.Ok? && r.value.JObj? && Lookup(r.value.fields, "names") == Some(Strings(names))
    ensures options.JArr? ==> r == Ok(options)
  {
    match options
    case JObj(fields) =>
      AssignSetsKey(fields, "names", Strings(names));
      Ok(JObj(Assign(fields, "names", Strings(names))))
    case JArr(_) => Ok(options)
    case _ => Err
  }

  /** `set`: adds `names` to the options and POSTs them to `conn/set`. */
  function Set(conn: string, options: Json, names: seq<string>): (r: Result<Request>)
    ensures r.Ok? <==> options.JObj? || options.JArr?
    ensures r.Ok? ==> r.value.url == conn + "/set" && r.value.verb == Post && r.value.body.Some?
    ensures r.Ok? && options.JObj? ==>
      && r.value.body.value.JObj?
      && Lookup(r.value.body.value.fields, "names") == Some(Strings(names))
      && (forall k :: k != "names" ==> Lookup(r.value.body.value.fields, k) == Lookup(options.fields, k))
    ensures r.Ok? && options.JArr? ==> r.value.body == Some(options)
  {
    SetNamesKeepsOthers(options, names);
    var body :- SetNames(options, names);
    Ok(Send(conn + "/set", Post, body))
  }

  lemma SetNamesKeepsOthers(options: Json, names: seq<string>)
    ensures options.JObj? ==> forall k :: k != "names" ==>
      Lookup(Assign(options.fields, "names", Strings(names)), k) == Lookup(options.fields, k)
  {
    if options.JObj? {
      forall k | k != "names"
        ensures Lookup(Assign(options.fields, "names", Strings(names)), k) == Lookup(options.fields, k)
      {
        AssignKeepsOthers(options.fields, "names", Strings(names), k);
      }
    }
  }

  /** The `{name, elements}` payload of rm, link and unlink. */
  function NameAndElements(name: string, elements: seq<string>): Json {
    JObj([("name", JStr(name)), ("elements", Strings(elements))])
  }

  /** `rm`: POST `conn/rm` with `{name: 'toRemove', elements: names}`. */
  function Rm(conn: string, names: seq<string>): (r: Request)
    ensures r.url == conn + "/rm" && r.verb == Post
    ensures r.body == Some(NameAndElements("toRemove", names))
  {
    Send(conn + "/rm", Post, NameAndElements("toRemove", names))
  }

  /** `link`: POST `conn/link` with `{name: groupName, elements: vms}`. */
  function Link(conn: string, vms: seq<string>, groupName: string): (r: Request)
    ensures r.url == conn + "/link" && r.verb == Post
    ensures r.body == Some(NameAndElements(groupName, vms))
  {
    Send(conn + "/link", Post, NameAndElements(groupName, vms))
  }

  /** `unlink`: POST `conn/unlink` with `{name: groupName, elements: vms}`. */
  function Unlink(conn: string, vms: seq<string>, groupName: string): (r: Request)
    ensures r.url == conn + "/unlink" && r.verb == Post
    ensures r.body == Some(NameAndElements(groupName, vms))
  {
    Send(conn + "/unlink", Post, NameAndElements(groupName, vms))
  }

  /** One call of the API, with its arguments. */
  datatype Call =
    | ListCall
    | ListFilesCall
    | RmFileCall(file: string)
    | AddCall(options: Json)
    | ImportCall(name: string, fileName: string)
    | ExportCall(name: string, fileName: string)
    | SetCall(options: Json, names: seq<string>)
    | RmCall(names: seq<string>)
    | LinkCall(vms: seq<string>, group: string)
    | UnlinkCall(vms: seq<string>, group: string)

  /** The request each call hands to `fetch`, or the error `set` throws when
      its options cannot take a property. For `vtimport` and `vtexport` this
      is the intended behaviour; `Perform` below adds the exception the code
      as written raises after sending. */
  function Issue(conn: string, c: Call): Result<Request> {
    match c
    case ListCall => Ok(List(conn))
    case ListFilesCall => Ok(ListFiles(conn))
    case RmFileCall(file) => Ok(RmFile(conn, file))
    case AddCall(options) => Ok(Add(conn, options))
    case ImportCall(name, fileName) => Ok(VtImport(conn, name, fileName))
    case ExportCall(name, fileName) => Ok(VtExport(conn, name, fileName))
    case SetCall(options, names) => Set(conn, options, names)
    case RmCall(names) => Ok(Rm(conn, names))
    case LinkCall(vms, group) => Ok(Link(conn, vms, group))
    case UnlinkCall(vms, group) => Ok(Unlink(conn, vms, group))
  }

  /** The calls whose request carries all of their arguments: a `set` whose
      options are an object that has no `names` property of its own. */
  predicate Recoverable(c: Call) {
    c.SetCall? ==> c.options.JObj? && "names" !in Keys(c.options.fields)
  }

  /** Reads a `{name, fileName}` payload. */
  function ReadNameAndFile(body: Json): Option<(string, string)> {
    if body.JObj? && |body.fields| == 2
      && body.fields[0].0 == "name" && body.fields[0].1.JStr?
      && body.fields[1].0 == "fileName" && body.fields[1].1.JStr?
    then Some((body.fields[0].1.s, body.fields[1].1.s))
    else None
  }

  /** Reads a `{name, elements}` payload. */
  function ReadNameAndElements(body: Json): Option<(string, seq<string>)> {
    if body.JObj? && |body.fields| == 2
      && body.fields[0].0 == "name" && body.fields[0].1.JStr?
      && body.fields[1].0 == "elements" && AsStrings(body.fields[1].1).Some?
    then Some((body.fields[0].1.s, AsStrings(body.fields[1].1).value))
    else None
  }

  /** Reads a `set` payload: an object whose last property is `names`,
      defined nowhere before it. */
  function ReadSet(body: Json): Option<(Json, seq<string>)> {
    if body.JObj? && |body.fields| >= 1 then
      var last := body.fields[|body.fields| - 1];
      var options := body.fields[..|body.fields| - 1];
      if last.0 == "names" && "names" !in Keys(options) && AsStrings(last.1).Some?
      then Some((JObj(options), AsStrings(last.1).value))
      else None
    else None
  }

  /** The server's view of a request sent to `conn`: which call it is and
      with which arguments, read from the path suffix, the method and the
      payload alone. */
  function Route(conn: string, req: Request): Option<Call> {
    if !(conn <= req.url) then None
    else
      var path := req.url[|conn|..];
      match req.verb
      case Get => RouteGet(path, req.body)
      case Delete => RouteDelete(path, req.body)
      case Post => if req.body.None? then None else RoutePost(path, req.body.value)
  }

  function RouteGet(path: string, body: Option<Json>): Option<Call> {
    if body.Some? then None
    else if path == "/list" then Some(ListCall)
    else if path == "/file" then Some(ListFilesCall)
    else None
  }

  function RouteDelete(path: string, body: Option<Json>): Option<Call> {
    if body == Some(EmptyObject) && |path| >= 6 && path[..6] == "/file/"
    then Some(RmFileCall(path[6..]))
    else None
  }

  function RoutePost(path: string, body: Json): Option<Call> {
    if path == "/add" then Some(AddCall(body))
    else if path == "/import" then
      (match ReadNameAndFile(body)
       case Some((n, f)) => Some(ImportCall(n, f))
       case None => None)
    else if path == "/export" then
      (match ReadNameAndFile(body)
       case Some((n, f)) => Some(ExportCall(n, f))
       case None => None)
    else if path == "/set" then
      (match ReadSet(body)
       case Some((o, ns)) => Some(SetCall(o, ns))
       case None => None)
    else if path == "/rm" then
      (match ReadNameAndElements(body)
       case Some((n, es)) => if n == "toRemove" then Some(RmCall(es)) else None
       case None => None)
    else if path == "/link" then
      (match ReadNameAndElements(body)
       case Some((n, es)) => Some(LinkCall(es, n))
       case None => None)
    else if path == "/unlink" then
      (match ReadNameAndElements(body)
       case Some((n, es)) => Some(UnlinkCall(es, n))
       case None => None)
    else None
  }

  /** The server's reading of a request built by `send` for `conn + suffix`. */
  lemma RouteOfSend(conn: string, suffix: string, verb: Method, data: Json)
    ensures var req := Send(conn + suffix, verb, data);
      Route(conn, req) == match verb
        case Get => RouteGet(suffix, None)
        case Delete => RouteDelete(suffix, Some(data))
        case Post => RoutePost(suffix, data)
  {
  }

  lemma {:induction false} ReadNameAndElementsOf(name: string, elements: seq<string>)
    ensures ReadNameAndElements(NameAndElements(name, elements)) == Some((name, elements))
  {
    AsStringsOfStrings(elements);
  }

  lemma {:induction false} ReadSetOf(fields: seq<(string, Json)>, names: seq<string>)
    requires "names" !in Keys(fields)
    ensures ReadSet(JObj(Assign(fields, "names", Strings(names)))) == Some((JObj(fields), names))
  {
    var all := Assign(fields, "names", Strings(names));
    AssignAppendsNewKey(fields, "names", Strings(names));
    assert all[..|all| - 1] == fields;
    AsStringsOfStrings(names);
  }

  lemma RouteRmFile(conn: string, file: string)
    ensures Route(conn, RmFile(conn, file)) == Some(RmFileCall(file))
  {
  }

  lemma RouteSet(conn: string, fields: seq<(string, Json)>, names: seq<string>)
    requires "names" !in Keys(fields)
    ensures Route(conn, Send(conn + "/set", Post, JObj(Assign(fields, "names", Strings(names)))))
         == Some(SetCall(JObj(fields), names))
  {
    var body := JObj(Assign(fields, "names", Strings(names)));
    RouteOfSend(conn, "/set", Post, body);
    ReadSetOf(fields, names);
  }

  lemma RouteNamedElements(conn: string, suffix: string, name: string, elements: seq<string>)
    requires suffix in ["/rm", "/link", "/unlink"]
    ensures Route(conn, Send(conn + suffix, Post, NameAndElements(name, elements)))
         == RoutePost(suffix, NameAndElements(name, elements))
    ensures ReadNameAndElements(NameAndElements(name, elements)) == Some((name, elements))
  {
    RouteOfSend(conn, suffix, Post, NameAndElements(name, elements));
    ReadNameAndElementsOf(name, elements);
  }

  /** Every recoverable call is issued without error, and the server can
      read the call and all of its arguments back from the request. */
  lemma {:induction false} RouteInvertsIssue(conn: string, c: Call)
    requires Recoverable(c)
    ensures Issue(conn, c).Ok?
    ensures Route(conn, Issue(conn, c).value) == Some(c)
  {
    match c
    case ListCall => RouteOfSend(conn, "/list", Get, EmptyObject);
    case ListFilesCall => RouteOfSend(conn, "/file", Get, EmptyObject);
    case RmFileCall(file) => RouteRmFile(conn, file);
    case AddCall(options) => RouteOfSend(conn, "/add", Post, options);
    case ImportCall(name, fileName) => RouteOfSend(conn, "/import", Post, NameAndFile(name, fileName));
    case ExportCall(name, fileName) => RouteOfSend(conn, "/export", Post, NameAndFile(name, fileName));
    case SetCall(options, names) =>
      assert Issue(conn, c) == Ok(Send(conn + "/set", Post, JObj(Assign(options.fields, "names", Strings(names)))));
      RouteSet(conn, options.fields, names);
    case RmCall(names) => RouteNamedElements(conn, "/rm", "toRemove", names);
    case LinkCall(vms, group) => RouteNamedElements(conn, "/link", group, vms);
    case UnlinkCall(vms, group) => RouteNamedElements(conn, "/unlink", group, vms);
  }

  /** What a wrapper call does as written: it sends a request and returns, it
      sends a request and then throws, or it throws before sending. */
  datatype Effect = Sent(req: Request) | SentThenThrew(req: Request) | Threw

  /** A wrapper call as the code is written. `vtimport` and `vtexport` assign
      the promise `send` returns to `response`, a name nothing declares; in
      strict code that assignment throws a ReferenceError, after `send` has
      already handed the request to `fetch`. */
  function Perform(conn: string, c: Call): (e: Effect)
    ensures e.Threw? <==> Issue(conn, c).Err?
    ensures !e.Threw? ==> e.req == Issue(conn, c).value
    ensures e.SentThenThrew? <==> c.ImportCall? || c.ExportCall?
  {
    match c
    case ListCall => Sent(List(conn))
    case ListFilesCall => Sent(ListFiles(conn))
    case RmFileCall(file) => Sent(RmFile(conn, file))
    case AddCall(options) => Sent(Add(conn, options))
    case ImportCall(name, fileName) => SentThenThrew(VtImport(conn, name, fileName))
    case ExportCall(name, fileName) => SentThenThrew(VtExport(conn, name, fileName))
    case SetCall(options, names) =>
      (match Set(conn, options, names)
       case Ok(req) => Sent(req)
       case Err => Threw)
    case RmCall(names) => Sent(Rm(conn, names))
    case LinkCall(vms, group) => Sent(Link(conn, vms, group))
    case UnlinkCall(vms, group) => Sent(Unlink(conn, vms, group))
  }

  /** As written, every `vtimport` and `vtexport` call throws, for every
      argument, although the server has received the complete request: the
      caller is told the call failed when it was sent in full. */
  lemma ImportExportThrowAfterSending(conn: string, c: Call)
    requires c.ImportCall? || c.ExportCall?
    ensures Perform(conn, c).SentThenThrew?
    ensures Route(conn, Perform(conn, c).req) == Some(c)
  {
    RouteInvertsIssue(conn, c);
  }

  /** Apart from `vtimport` and `vtexport`, a call as written returns exactly
      when the intended call issues a request. */
  lemma PerformAgreesElsewhere(conn: string, c: Call)
    requires !c.ImportCall? && !c.ExportCall?
    ensures Perform(conn, c).Sent? <==> Issue(conn, c).Ok?
    ensures Perform(conn, c).Sent? ==> Perform(conn, c).req == Issue(conn, c).value
  {
  }

  /** Distinct recoverable calls to the same endpoint issue distinct requests. */
  lemma IssueIsInjective(conn: string, c1: Call, c2: Call)
    requires Recoverable(c1) && Recoverable(c2)
    requires Issue(conn, c1) == Issue(conn, c2)
    ensures c1 == c2
  {
    RouteInvertsIssue(conn, c1);
    RouteInvertsIssue(conn, c2);
  }

  /** Only GET requests go without a body: every other call carries its
      payload, `rmfile` included. */
  lemma BodyExactlyWhenNotGet(conn: string, c: Call)
    requires Issue(conn, c).Ok?
    ensures Issue(conn, c).value.body.None? <==> (c.ListCall? || c.ListFilesCall?)
  {
  }

  /** A `set` with an options object that already has `names`, wherever it
      stands among the members, overwrites it in place: whatever names the
      options held, the request is the same, and `names` keeps its position. */
  lemma SetOverwritesNames(conn: string, pre: seq<(string, Json)>, old1: Json, old2: Json,
                           post: seq<(string, Json)>, names: seq<string>)
    requires "names" !in Keys(pre)
    ensures Set(conn, JObj(pre + [("names", old1)] + post), names)
         == Set(conn, JObj(pre + [("names", old2)] + post), names)
    ensures Set(conn, JObj(pre + [("names", old1)] + post), names).Ok?
    ensures Set(conn, JObj(pre + [("names", old1)] + post), names).value.body
         == Some(JObj(pre + [("names", Strings(names))] + post))
  {
    var tail1 := [("names", old1)] + post;
    var tail2 := [("names", old2)] + post;
    assert pre + [("names", old1)] + post == pre + tail1;
    assert pre + [("names", old2)] + post == pre + tail2;
    assert tail1[1..] == post && tail2[1..] == post;
    AssignReplacesFirst(pre, tail1, "names", Strings(names));
    AssignReplacesFirst(pre, tail2, "names", Strings(names));
    assert pre + ([("names", Strings(names))] + post) == pre + [("names", Strings(names))] + post;
  }

  /** The property names of a `Params` object, in the order the constructor
      assigns them. */
  const ParamsKeys: seq<string> := ["name", "ram", "hdd", "cpu", "cores", "ip", "iso", "action", "status"]

  lemma ParamsKeysDistinct()
    ensures forall i, j :: 0 <= i < |ParamsKeys| && 0 <= j < |ParamsKeys| && i != j ==> ParamsKeys[i] != ParamsKeys[j]
    ensures forall i :: 0 <= i < |ParamsKeys| ==> ParamsKeys[i] != "names"
  {
  }

  /** The properties of a `Params` object with their values. */
  function ParamsEntries(p: Params): (entries: seq<(string, Option<Json>)>)
    requires Integral(p)
    ensures |entries| == |ParamsKeys|
    ensures forall i :: 0 <= i < |entries| ==> entries[i].0 == ParamsKeys[i]
  {
    var values := [StrValue(p.name), NumValue(p.ram), NumValue(p.hdd), NumValue(p.cpu), NumValue(p.cores),
                   StrValue(p.ip), StrValue(p.iso), StrValue(p.action), Some(JStr(ActionName(p.status)))];
    seq(|ParamsKeys|, i requires 0 <= i < |ParamsKeys| => (ParamsKeys[i], values[i]))
  }

  function StrValue(v: Option<string>): Option<Json> {
    if v.Some? then Some(JStr(v.value)) else None
  }

  function NumValue(v: Num): Option<Json>
    requires !v.NonInteger?
  {
    if v.Int? then Some(JNum(v.n)) else None
  }

  /** `JSON.stringify` of a `Params`: its defined properties, in order. It
      never has a `names` member, always has the status, and has every other
      property, with its value, exactly when that property is defined. */
  function ParamsToJson(p: Params): (j: Json)
    requires Integral(p)
    ensures j.JObj?
    ensures "names" !in Keys(j.fields)
    ensures Lookup(j.fields, "name") == if p.name.Some? then Some(JStr(p.name.value)) else None
    ensures Lookup(j.fields, "ram") == if p.ram.Int? then Some(JNum(p.ram.n)) else None
    ensures Lookup(j.fields, "hdd") == if p.hdd.Int? then Some(JNum(p.hdd.n)) else None
    ensures Lookup(j.fields, "cpu") == if p.cpu.Int? then Some(JNum(p.cpu.n)) else None
    ensures Lookup(j.fields, "cores") == if p.cores.Int? then Some(JNum(p.cores.n)) else None
    ensures Lookup(j.fields, "ip") == if p.ip.Some? then Some(JStr(p.ip.value)) else None
    ensures Lookup(j.fields, "iso") == if p.iso.Some? then Some(JStr(p.iso.value)) else None
    ensures Lookup(j.fields, "action") == if p.action.Some? then Some(JStr(p.action.value)) else None
    ensures Lookup(j.fields, "status") == Some(JStr(ActionName(p.status)))
  {
    var entries := ParamsEntries(p);
    ParamsKeysDistinct();
    DefinedOmitsAbsentKey(entries, "names");
    DefinedLookupAll(entries);
    assert entries[0] == ("name", StrValue(p.name));
    assert entries[1] == ("ram", NumValue(p.ram));
    assert entries[2] == ("hdd", NumValue(p.hdd));
    assert entries[3] == ("cpu", NumValue(p.cpu));
    assert entries[4] == ("cores", NumValue(p.cores));
    assert entries[5] == ("ip", StrValue(p.ip));
    assert entries[6] == ("iso", StrValue(p.iso));
    assert entries[7] == ("action", StrValue(p.action));
    assert entries[8] == ("status", Some(JStr(ActionName(p.status))));
    JObj(Defined(entries))
  }

  /** `set` with the serialized form of a `Params` never throws, and the
      server reads back both the options and the names. */
  lemma SetWithParams(conn: string, p: Params, names: seq<string>)
    requires Integral(p)
    ensures Issue(conn, SetCall(ParamsToJson(p), names)).Ok?
    ensures Route(conn, Issue(conn, SetCall(ParamsToJson(p), names)).value) == Some(SetCall(ParamsToJson(p), names))
  {
    RouteInvertsIssue(conn, SetCall(ParamsToJson(p), names));
  }
}

=== FILE: vm_params.dfy ===
/** The value objects of the client library: the `Action` enumeration, the
    validating `Params` constructor with its static checks, `Group` and
    `GlobalState` (vtapi.js lines 9-128). */
module VmParams {

  import opened Outcomes
  import opened JsValues
  import Ipv4

  /** The valid actions, which are also the valid observed states. */
  datatype Action = Start | Stop | Suspend | Reset

  /** The string each action stands for on the wire. */
  function ActionName(a: Action): string {
    match a
    case Start => "start"
    case Stop => "stop"
    case Suspend => "suspend"
    case Reset => "reset"
  }

  /** `Object.values(Action)`, in declaration order. */
  const ActionValues: seq<string> := ["start", "stop", "suspend", "reset"]

  /** The enumeration's table lists each action once, and nothing else. */
  lemma ActionValuesAreTheActions()
    ensures |ActionValues| == 4
    ensures forall a: Action :: ActionName(a) in ActionValues
    ensures forall i :: 0 <= i < |ActionValues| ==> exists a: Action :: ActionName(a) == ActionValues[i]
    ensures forall a, b: Action :: ActionName(a) == ActionName(b) ==> a == b
  {
    assert ActionName(Start) == ActionValues[0];
    assert ActionName(Stop) == ActionValues[1];
    assert ActionName(Suspend) == ActionValues[2];
    assert ActionName(Reset) == ActionValues[3];
  }

  /** `Params.checkAction`: passes on `undefined` or the name of an action,
      throws otherwise; it returns no value in either case. */
  function CheckAction(a: Option<string>): (r: Outcome)
    ensures r.Pass? <==> (a.None? || exists act: Action :: ActionName(act) == a.value)
  {
    ActionValuesAreTheActions();
    if a.None? then Pass
    else if a.value in ActionValues then Pass
    else Fail
  }

  /** The inclusive range `[lo, hi]`, or `[lo, infinity)` when `hi` is undefined. */
  predicate InRange(n: int, lo: int, hi: Option<int>) {
    lo <= n && (hi.None? || n <= hi.value)
  }

  /** A value the range check lets through: `undefined`, or an integer in range. */
  predicate Admits(v: Num, lo: int, hi: Option<int>) {
    v.Undef? || (v.Int? && InRange(v.n, lo, hi))
  }

  /** `Params.checkRange`: `undefined` passes through whatever the bounds are;
      a defined value is returned unchanged when it is an integer within the
      inclusive bounds, and anything else throws. */
  function CheckRange(num: Num, min: int, max: Option<int>): (r: Result<Num>)
    ensures num.Undef? ==> r == Ok(Undef)
    ensures r.Ok? <==> Admits(num, min, max)
    ensures r.Ok? ==> r.value == num
    ensures num.NonInteger? ==> r.Err?
  {
    if num.Undef? then Ok(Undef)
    else if num.Int? && num.n >= min && (max.None? || num.n <= max.value) then Ok(num)
    else Err
  }

  function MaxInt(a: int, b: int): int {
    if a < b then b else a
  }

  /** The tighter of two upper bounds, where `None` is no bound. */
  function MinBound(a: Option<int>, b: Option<int>): Option<int> {
    if a.None? then b
    else if b.None? then a
    else if a.value < b.value then a
    else b
  }

  /** Passing two range checks is passing one check against the
      intersection of the two ranges. */
  lemma CheckRangeIntersection(v: Num, lo1: int, hi1: Option<int>, lo2: int, hi2: Option<int>)
    ensures (CheckRange(v, lo1, hi1).Ok? && CheckRange(v, lo2, hi2).Ok?)
        <==> CheckRange(v, MaxInt(lo1, lo2), MinBound(hi1, hi2)).Ok?
  {
  }

  /** Both ends of a range check are inclusive, and it rejects just outside
      each end. */
  lemma CheckRangeBoundsInclusive(lo: int, hi: int)
    requires lo <= hi
    ensures CheckRange(Int(lo), lo, Some(hi)) == Ok(Int(lo))
    ensures CheckRange(Int(hi), lo, Some(hi)) == Ok(Int(hi))
    ensures CheckRange(Int(lo - 1), lo, Some(hi)).Err?
    ensures CheckRange(Int(hi + 1), lo, Some(hi)).Err?
    ensures CheckRange(Int(hi + 1), lo, None) == Ok(Int(hi + 1))
  {
  }

  /** The string `RegExp.prototype.test` examines: a missing argument is
      converted to the text "undefined". */
  function IpText(ip: Option<string>): string {
    if ip.None? then "undefined" else ip.value
  }

  /** `Params.checkIp`: returns the address unchanged when it matches the
      dotted-quad regular expression and throws otherwise. There is no
      pass-through for `undefined`. */
  function CheckIp(ip: Option<string>): (r: Result<string>)
    ensures r.Ok? <==> ip.Some? && Ipv4.DottedQuad(ip.value)
    ensures r.Ok? <==> ip.Some? && Ipv4.MatchesIpv4Regex(ip.value)
    ensures r.Ok? ==> r.value == ip.value
  {
    var text := IpText(ip);
    Ipv4.MatcherIsNumeric(text);
    Ipv4.MatcherIsRegex(text);
    Ipv4.NoDotIsNotQuad("undefined");
    if Ipv4.MatchesQuad(text) then Ok(text) else Err
  }

  /** A missing address is rejected. */
  lemma CheckIpRejectsUndefined()
    ensures CheckIp(None).Err?
  {
  }

  /** The state of a VM as the client describes it. Numeric fields hold what
      the range checks returned; `name`, `iso` and `action` are stored as
      given. */
  datatype Params = Params(
    name: Option<string>,
    ram: Num,
    hdd: Num,
    cpu: Num,
    cores: Num,
    ip: Option<string>,
    iso: Option<string>,
    action: Option<string>,
    status: Action)

  /** Every numeric field is `undefined` or an integer. */
  predicate Integral(p: Params) {
    !p.ram.NonInteger? && !p.hdd.NonInteger? && !p.cpu.NonInteger? && !p.cores.NonInteger?
  }

  const RamMin := 1024
  const RamMax := 1024 * 64
  const HddMin := 1024
  const CpuMin := 0
  const CpuMax := 100
  const CoresMin := 1

  /** The `Params` constructor as written: `cores` is checked and stored from
      the `cpu` argument (the `cores` argument is never read), `ip` is
      checked with no pass-through for `undefined`, `action` is stored without
      `checkAction`, and `status` starts as STOP. */
  function NewParams(name: Option<string>, ram: Num, hdd: Num, cpu: Num, cores: Num,
                     ip: Option<string>, iso: Option<string>, action: Option<string>): (r: Result<Params>)
    ensures r.Ok? <==>
      && Admits(ram, RamMin, Some(RamMax))
      && Admits(hdd, HddMin, None)
      && Admits(cpu, CoresMin, Some(CpuMax))
      && ip.Some? && Ipv4.DottedQuad(ip.value)
    ensures r.Ok? ==>
      && r.value.name == name && r.value.iso == iso && r.value.action == action
      && r.value.ram == ram && r.value.hdd == hdd && r.value.cpu == cpu
      && r.value.cores == cpu
      && r.value.ip == ip
      && r.value.status == Stop
      && Integral(r.value)
  {
    CheckRangeIntersection(cpu, CpuMin, Some(CpuMax), CoresMin, None);
    var ramOk :- CheckRange(ram, RamMin, Some(RamMax));
    var hddOk :- CheckRange(hdd, HddMin, None);
    var cpuOk :- CheckRange(cpu, CpuMin, Some(CpuMax));
    var coresOk :- CheckRange(cpu, CoresMin, None);
    var ipOk :- CheckIp(ip);
    Ok(Params(name, ramOk, hddOk, cpuOk, coresOk, Some(ipOk), iso, action, Stop))
  }

  /** Constructing without an address always throws. */
  lemma NewParamsRequiresIp(name: Option<string>, ram: Num, hdd: Num, cpu: Num, cores: Num,
                            iso: Option<string>, action: Option<string>)
    ensures NewParams(name, ram, hdd, cpu, cores, None, iso, action).Err?
  {
  }

  /** A successful construction with a defined `cpu` has it in `[1, 100]`,
      copied into `cores`; `cpu == 0`, although within the cpu range, is
      rejected by the cores bound. */
  lemma NewParamsCoresFromCpu(name: Option<string>, ram: Num, hdd: Num, cpu: Num, cores: Num,
                              ip: Option<string>, iso: Option<string>, action: Option<string>)
    ensures var r := NewParams(name, ram, hdd, cpu, cores, ip, iso, action);
      r.Ok? && cpu.Int? ==> 1 <= cpu.n <= 100 && r.value.cores == cpu
    ensures NewParams(name, ram, hdd, Int(0), cores, ip, iso, action).Err?
  {
  }

  /** The `cores` argument has no effect on the outcome. */
  lemma NewParamsIgnoresCores(name: Option<string>, ram: Num, hdd: Num, cpu: Num, c1: Num, c2: Num,
                              ip: Option<string>, iso: Option<string>, action: Option<string>)
    ensures NewParams(name, ram, hdd, cpu, c1, ip, iso, action)
         == NewParams(name, ram, hdd, cpu, c2, ip, iso, action)
  {
  }

  /** `action` is not validated: a construction that succeeds with one
      action string succeeds with any other, valid or not. */
  lemma NewParamsIgnoresActionValidity(name: Option<string>, ram: Num, hdd: Num, cpu: Num, cores: Num,
                                       ip: Option<string>, iso: Option<string>, a1: Option<string>, a2: Option<string>)
    ensures NewParams(name, ram, hdd, cpu, cores, ip, iso, a1).Ok?
        <==> NewParams(name, ram, hdd, cpu, cores, ip, iso, a2).Ok?
  {
  }

  /** The documented example: ram 512 is below the minimum and throws, while
      the same call with ram 2048 succeeds. */
  lemma NewParamsExample()
    ensures NewParams(Some("vm1"), Int(512), Int(1024), Int(50), Int(1), Some("1.2.3.4"), None, Some("start")).Err?
    ensures var r := NewParams(Some("vm1"), Int(2048), Int(1024), Int(50), Int(1), Some("1.2.3.4"), None, Some("start"));
      r.Ok? && r.value.cores == Int(50) && r.value.status == Stop
  {
    assert Ipv4.NumericOctet("1") by { assert Ipv4.DecimalValue("1") == 1; }
    assert Ipv4.NumericOctet("2") by { assert Ipv4.DecimalValue("2") == 2; }
    assert Ipv4.NumericOctet("3") by { assert Ipv4.DecimalValue("3") == 3; }
    assert Ipv4.NumericOctet("4") by { assert Ipv4.DecimalValue("4") == 4; }
    Ipv4.QuadOfOctets("1", "2", "3", "4");
    assert "1" + "." + "2" + "." + "3" + "." + "4" == "1.2.3.4";
  }

  /** The constructor the validation evidently intends: `cores` is checked
      against its own bound and stored from the `cores` argument, while `cpu`
      keeps its own range `[0, 100]`. */
  function NewParamsIntended(name: Option<string>, ram: Num, hdd: Num, cpu: Num, cores: Num,
                             ip: Option<string>, iso: Option<string>, action: Option<string>): (r: Result<Params>)
    ensures r.Ok? <==>
      && Admits(ram, RamMin, Some(RamMax))
      && Admits(hdd, HddMin, None)
      && Admits(cpu, CpuMin, Some(CpuMax))
      && Admits(cores, CoresMin, None)
      && ip.Some? && Ipv4.DottedQuad(ip.value)
    ensures r.Ok? ==>
      && r.value.name == name && r.value.iso == iso && r.value.action == action
      && r.value.ram == ram && r.value.hdd == hdd && r.value.cpu == cpu
      && r.value.cores == cores
      && r.value.ip == ip
      && r.value.status == Stop
      && Integral(r.value)
  {
    var ramOk :- CheckRange(ram, RamMin, Some(RamMax));
    var hddOk :- CheckRange(hdd, HddMin, None);
    var cpuOk :- CheckRange(cpu, CpuMin, Some(CpuMax));
    var coresOk :- CheckRange(cores, CoresMin, None);
    var ipOk :- CheckIp(ip);
    Ok(Params(name, ramOk, hddOk, cpuOk, coresOk, Some(ipOk), iso, action, Stop))
  }

  /** The two constructors differ: with cpu 0 and 2 cores the constructor as
      written throws, and with cpu 50 and cores left undefined it stores 50
      cores; the intended one accepts the first and keeps cores undefined in
      the second. */
  lemma CoresCheckedAgainstCpu()
    ensures NewParams(None, Undef, Undef, Int(0), Int(2), Some("10.0.0.1"), None, None).Err?
    ensures var r := NewParamsIntended(None, Undef, Undef, Int(0), Int(2), Some("10.0.0.1"), None, None);
      r.Ok? && r.value.cpu == Int(0) && r.value.cores == Int(2)
    ensures NewParams(None, Undef, Undef, Int(50), Undef, Some("10.0.0.1"), None, None).value.cores == Int(50)
    ensures NewParamsIntended(None, Undef, Undef, Int(50), Undef, Some("10.0.0.1"), None, None).value.cores == Undef
  {
    assert Ipv4.NumericOctet("10") by { Ipv4.TwoDigitValue("10"); }
    assert Ipv4.NumericOctet("0") by { assert Ipv4.DecimalValue("0") == 0; }
    assert Ipv4.NumericOctet("1") by { assert Ipv4.DecimalValue("1") == 1; }
    Ipv4.QuadOfOctets("10", "0", "0", "1");
    assert "10" + "." + "0" + "." + "0" + "." + "1" == "10.0.0.1";
  }

  /** The intended constructor agrees with the one as written whenever
      `cores` is given the same value as `cpu`. */
  lemma IntendedAgreesWhenCoresIsCpu(name: Option<string>, ram: Num, hdd: Num, cpu: Num,
                                     ip: Option<string>, iso: Option<string>, action: Option<string>)
    ensures NewParamsIntended(name, ram, hdd, cpu, cpu, ip, iso, action)
         == NewParams(name, ram, hdd, cpu, cpu, ip, iso, action)
  {
  }

  /** A group of VMs or other groups, named by `name`. */
  datatype Group = Group(name: string, members: seq<string>)

  /** The `Group` constructor: a new group is empty. */
  function NewGroup(name: string): (g: Group)
    ensures g.name == name && |g.members| == 0
  {
    Group(name, [])
  }

  /** A snapshot of every VM and group, as returned by the server. */
  datatype GlobalState = GlobalState(vms: seq<Params>, groups: seq<Group>)
}
